=== FILE: README.md ===
# Ghosten API plugin call bridge, in Dafny

This project models the Android side of the Ghosten player's `api` Flutter
plugin (`ApiPlugin.kt`): the dispatcher behind `onMethodCall`, the
streaming bridge that relays a service call's updates to a Flutter
event-channel sink, and the readiness gate that holds an `initialized`
query until the background `ApiService` connects.

All plugin state is written only on the Android main thread. Service calls
run on `Dispatchers.IO`, and their results, updates included, come back to
the main thread. So the model is one state machine driven by a sequence of
events (see "Left out"), with pure step functions that return the new state
and the emissions in order:

- `Wrappers`, `Text` (`text.dfy`): optional values, bytes, the UUID text
  shape, its UTF-8 bytes, and `Int.toString()` with its inverse and its
  canonical form.
- `Protocol` (`protocol.dfy`): what crosses the boundary. Replies to a
  method-channel `Result`, pushes to a sink, the streaming acknowledgment
  (`[217, 36]` followed by the token's bytes), and the error shape.
- `Dispatcher` (`dispatcher.dfy`): reserved names, and the `"/cb"` suffix
  that makes a generic call a streaming call.
- `Gate` (`gate.dfy`): `apiService`, `serviceConnected` and the held
  `methodCallResult`, with `onServiceConnected` and `onServiceDisconnected`.
- `Bridge` (`bridge.dfy`): `eventSinkMap` and the per-token closure state
  (`finished`, `apiException`, the captured `result`), with `onListen`,
  `onCancel`, `onApiMethodUpdate` and the `try`/`catch`/`finally`
  completion.
- `Plugin` (`plugin.dfy`): the whole state, the event alphabet, one step
  (`Handle`), runs of many steps (`Run`), and the properties over runs.
  Those properties are: no sink receives anything after its end-of-stream;
  a finished stream pushes nothing but end-of-stream; every push comes
  after its token's acknowledgment.
- `Scenarios` (`scenarios.dfy`): complete exchanges for simple calls and
  for streaming calls with early and late listeners, stated for every
  token, sink and payload.

The model follows the code, including behaviour a caller might not expect:

- A listener that attaches after the service threw does not receive the
  error. The sink only gets end-of-stream. The error is sent to the call's
  `Result`, which the acknowledgment already answered
  (`Bridge.Listen`, `Scenarios.LateListenerAfterErrorScenario`; see
  "Left out" for what this assumes of the embedding).
- Updates that arrive while no sink is registered are dropped, not
  buffered (`Bridge.Update`, `Scenarios.LateListenerScenario`).
- `onServiceDisconnected` does not clear a held `initialized` query. The
  query stays held and is answered by the next connection
  (`Gate.Disconnect`).
- A second `initialized` query while one is held replaces it. The first is
  never answered (`Gate.HeldQueryReplaced`).
- A second `onListen` that reaches the plugin on a running stream
  replaces the registered sink without closing the earlier one
  (`Bridge.Listen`; see "Left out" for the embedding's own cancel).
- Only `ApiException` is caught around a simple call. Anything else
  escapes, and the call is never answered (`Plugin.CallReturn`,
  `Scenarios.EscapedCallScenario`).

## Model

| member | source | states |
|---|---|---|
| Text.IntDecimalRoundTrip | api/android/src/main/kotlin/com/ghosten/api/ApiPlugin.kt:143-145 | the error code string `code.toString()` parses back to exactly the service's numeric code |
| Text.IntToDecimal | api/android/src/main/kotlin/com/ghosten/api/ApiPlugin.kt:143-145 | `code.toString()` is canonical: an optional minus sign exactly for negative codes, then digits with no leading zero, never "-0" |
| Text.CanonicalRendering | api/android/src/main/kotlin/com/ghosten/api/ApiPlugin.kt:143-145 | every canonical text is the `toString()` of the integer it reads as |
| Text.CanonicalDecimalUnique | api/android/src/main/kotlin/com/ghosten/api/ApiPlugin.kt:143-145 | two canonical texts that read as the same integer are the same text, so a code's text is determined by its value |
| Protocol.ErrorReply | api/android/src/main/kotlin/com/ghosten/api/ApiPlugin.kt:166-167 | an `ApiException` reaches a `Result` as an error whose code is a canonical decimal text reading back as the exception's code (so, by `Text.CanonicalDecimalUnique`, exactly `code.toString()`) and whose message is the exception's message |
| Protocol.FailureEvent | api/android/src/main/kotlin/com/ghosten/api/ApiPlugin.kt:141-147 | an `ApiException` reaches a sink as an error event whose code is the canonical decimal text of the exception's code, with the same message |
| Protocol.Ack | api/android/src/main/kotlin/com/ghosten/api/ApiPlugin.kt:93-94 | the acknowledgment of a streaming call is 38 bytes and opens with the tag bytes 217, 36 |
| Protocol.AckRoundTrip | api/android/src/main/kotlin/com/ghosten/api/ApiPlugin.kt:93-96 | a caller reading the acknowledgment (check the tag, decode the rest) recovers exactly the minted token, which names the event channel |
| Protocol.AckInjective | api/android/src/main/kotlin/com/ghosten/api/ApiPlugin.kt:93-96 | two acknowledgments are equal exactly when their tokens are |
| Dispatcher.RouteOf | api/android/src/main/kotlin/com/ghosten/api/ApiPlugin.kt:46-92 | `initialized` goes to the gate, the six other reserved names are handled locally, and exactly the non-reserved names are generic calls |
| Dispatcher.MarkedNamesStream | api/android/src/main/kotlin/com/ghosten/api/ApiPlugin.kt:92 | every name ending in "/cb" is a streaming call |
| Dispatcher.StreamingNamesAreMarked | api/android/src/main/kotlin/com/ghosten/api/ApiPlugin.kt:92 | a streaming name ends in "/cb", and a simple name does not |
| Gate.Initialized | api/android/src/main/kotlin/com/ghosten/api/ApiPlugin.kt:49-55 | when connected the query is answered at once with the service's port; otherwise it is held, replacing any held one, with no reply |
| Gate.Connect | api/android/src/main/kotlin/com/ghosten/api/ApiPlugin.kt:196-202 | connecting stores the service and raises the flag; the held query, and only it, gets one reply with the new service's port; nothing stays held |
| Gate.Disconnect | api/android/src/main/kotlin/com/ghosten/api/ApiPlugin.kt:204-207 | disconnecting drops the service and lowers the flag, emits nothing, and leaves a held query held |
| Gate.HeldQueryReplaced | api/android/src/main/kotlin/com/ghosten/api/ApiPlugin.kt:49-55 | of two queries made while disconnected, only the later one is answered when the service connects |
| Gate.ConnectAnswersOnce | api/android/src/main/kotlin/com/ghosten/api/ApiPlugin.kt:200-201 | a second connection answers nobody: the held query is answered at most once |
| Bridge.Open | api/android/src/main/kotlin/com/ghosten/api/ApiPlugin.kt:93-99 | a streaming call adds one running stream with no sink and no failure, and touches no other stream |
| Bridge.Listen | api/android/src/main/kotlin/com/ghosten/api/ApiPlugin.kt:100-115 | a null sink changes nothing; on a finished stream the sink is closed once and never registered, and a recorded failure goes to the call's `Result` only; on a running stream the sink is registered, replacing any earlier one, with no emission |
| Bridge.Cancel | api/android/src/main/kotlin/com/ghosten/api/ApiPlugin.kt:117-119 | the token's sink is removed, and closed exactly when one was registered; no stream changes |
| Bridge.Update | api/android/src/main/kotlin/com/ghosten/api/ApiPlugin.kt:129-137 | with a sink the update minus its first two bytes is pushed to it; with no sink nothing is emitted and nothing changes; the relay faults exactly when a sink is registered and fewer than two bytes arrived |
| Bridge.Complete | api/android/src/main/kotlin/com/ghosten/api/ApiPlugin.kt:141-154 | a registered sink gets the failure (if any) then end-of-stream and is removed; with no sink the failure is recorded and nothing is emitted; the stream is finished afterwards and no other stream changes |
| Bridge.UpdateAfterCancelDropped | api/android/src/main/kotlin/com/ghosten/api/ApiPlugin.kt:117-131 | after a cancel, an update for the token emits nothing and changes nothing |
| Bridge.FinishedStreamIsSilent | api/android/src/main/kotlin/com/ghosten/api/ApiPlugin.kt:100-131 | on a finished stream an update is dropped, and a listener gets end-of-stream and no other sink event |
| Plugin.MethodCall | api/android/src/main/kotlin/com/ghosten/api/ApiPlugin.kt:45-173 | a generic call with no service gets exactly the "50000"/"Service Start Failed" error and changes nothing; a streaming call gets one acknowledgment that decodes to its token and opens a running stream with no sink, leaving every other stream unchanged; a simple call emits nothing until the service answers; reserved names never reach the bridge |
| Plugin.CallReturn | api/android/src/main/kotlin/com/ghosten/api/ApiPlugin.kt:156-168 | a simple call whose service returns or throws an `ApiException` gets exactly one reply: the bytes unchanged, or the canonical code text and the message; any other exception crashes, leaving the call unanswered |
| Plugin.Handle | api/android/src/main/kotlin/com/ghosten/api/ApiPlugin.kt:45-207 | every deliverable event keeps the gate and bridge invariants, and an event crashes exactly when it is a too-short update relayed to a registered sink or a simple call's return with an exception other than `ApiException`; only a connection or a disconnection changes the service handle |
| Plugin.Run | api/android/src/main/kotlin/com/ghosten/api/ApiPlugin.kt:33-36 | after any sequence of events the state still satisfies the gate and bridge invariants: flag and handle agree, nothing is held while connected, no sink is registered for a finished stream |
| Plugin.DisconnectedGenericCallFails | api/android/src/main/kotlin/com/ghosten/api/ApiPlugin.kt:87-90 | after `onServiceDisconnected`, whatever events follow until the next connection, every generic call gets exactly the "50000" error and changes nothing |
| Plugin.StaysDisconnected | api/android/src/main/kotlin/com/ghosten/api/ApiPlugin.kt:196-207 | only `onServiceConnected` sets the service handle: along any run without one, a disconnected plugin stays disconnected |
| Plugin.TraceInvHolds | api/android/src/main/kotlin/com/ghosten/api/ApiPlugin.kt:110-152 | along any run with a new sink per `onListen`, every registered sink was listened for and not yet closed, and the registry maps different tokens to different sinks |
| Plugin.SinkClosedAtMostOnce | api/android/src/main/kotlin/com/ghosten/api/ApiPlugin.kt:110-152 | over any run, once a sink has received end-of-stream it receives nothing more, so no sink is closed twice |
| Plugin.FinishedStreamStaysSilent | api/android/src/main/kotlin/com/ghosten/api/ApiPlugin.kt:100-154 | once a stream has finished it stays finished, and no later event pushes data or an error to any sink of its token |
| Plugin.NothingDeliveredAfterCompletion | api/android/src/main/kotlin/com/ghosten/api/ApiPlugin.kt:141-154 | after the completion of a streaming call, whatever events follow, its token's sinks receive nothing but end-of-stream |
| Plugin.AckPrecedesPushes | api/android/src/main/kotlin/com/ghosten/api/ApiPlugin.kt:93-131 | over any run, every stream was opened by an emitted acknowledgment, and every push to a sink comes after its token's acknowledgment |
| Scenarios.SimpleCallScenario | api/android/src/main/kotlin/com/ghosten/api/ApiPlugin.kt:156-168 | connect, simple call, service returns bytes: the caller's only answer is those bytes |
| Scenarios.EscapedCallScenario | api/android/src/main/kotlin/com/ghosten/api/ApiPlugin.kt:156-168 | connect, simple call, service throws something other than an `ApiException`: the run halts with no reply and the call still outstanding |
| Scenarios.AckScenario | api/android/src/main/kotlin/com/ghosten/api/ApiPlugin.kt:92-99 | connect, streaming call: the only emission is the acknowledgment, and one running stream without a sink exists |
| Scenarios.EarlyListenerScenario | api/android/src/main/kotlin/com/ghosten/api/ApiPlugin.kt:100-154 | a sink attached before two updates gets both payloads in order, then end-of-stream |
| Scenarios.UpdatesUnheard | api/android/src/main/kotlin/com/ghosten/api/ApiPlugin.kt:129-138 | updates that arrive before any sink is registered are dropped: no emission, no state change |
| Scenarios.FailureRecorded | api/android/src/main/kotlin/com/ghosten/api/ApiPlugin.kt:141-154 | a service failure with nobody listening emits nothing and is recorded on the finished stream |
| Scenarios.LateListenerScenario | api/android/src/main/kotlin/com/ghosten/api/ApiPlugin.kt:100-154 | a sink attached after success gets end-of-stream alone; the updates before it are lost |
| Scenarios.LateListenerAfterErrorScenario | api/android/src/main/kotlin/com/ghosten/api/ApiPlugin.kt:102-110 | a sink attached after a failure gets end-of-stream alone, and the failure goes to the already-answered call `Result` |
| Scenarios.InitializedBeforeConnectScenario | api/android/src/main/kotlin/com/ghosten/api/ApiPlugin.kt:49-55 | an `initialized` query before connection is answered once, by the connection, with the service's port |

## Left out

- `getLocalIpAddress`, `databasePath`, `syncData`, `rollbackData`, `resetData` and `log` are routed locally and emitted as `ToLeaf`. Their replies come from network-interface enumeration and file I/O in `ApiService`, which is not part of this model. That includes `syncData` not answering on success.
- Plugin and activity attach/detach, `startService`/`bindService`, and channel construction are Android and Flutter plumbing with no logic of their own.
- Coroutines, `Dispatchers.IO` and `runOnUiThread` are modelled as one serialised event sequence. The work inside `withContext(Dispatchers.IO)` (the reads of `apiService`, the `!!` argument checks and the service call itself) is folded into the event that reports its result. `onApiMethodUpdate` is called on the service's thread and only posts its body with `runOnUiThread`; that body is an `OnUpdate` event that may fall anywhere in the sequence.
- Plugin.MethodCall: the hop from `onMethodCall` to the launched coroutine body is one step. A disconnection in between is not modelled. For a streaming call it would make `apiService?.` skip the call, which looks like `OnComplete(None)`. For a simple call it would make `apiService!!` throw a `NullPointerException`, which is the `Escaped` outcome of that call's return.
- Bridge.Complete: exceptions other than `ApiException` skip `finished = true` and escape the coroutine. Only `ApiException` is modelled.
- `UUID.randomUUID()` is an input: the token of each streaming call has the UUID text shape and is new.
- `ApiService.apiCall`, `apiCallWithCallback` and `apiInitializedPort` are external. Their results are event inputs: bytes, an `ApiException` or a port.
- `ApiException.message` is nullable in Kotlin. It is modelled as a string. The `details` argument of `error(...)`, always `null` here, is dropped.
- `ApiException.code` is an unbounded integer. Within Kotlin's `Int` range, its decimal text is the same as `toString()`.
- Plugin.SinkClosedAtMostOnce: assumes that each `onListen` brings a new sink object, as the Flutter embedding creates one per listen.
- Plugin.CallReturn: an exception other than `ApiException` (from `apiCall` or from the `!!` on a missing "data" or "params" argument) escapes the coroutine to the main thread's uncaught-exception handler. The model halts the run there (`Crashed`) with the call unanswered; what the handler does next (on Android, usually ending the process) is not modelled.
- Bridge.Listen: states what `ApiPlugin.kt` does taken in isolation, under two assumptions about the Flutter embedding, which is not part of this model. First, a second reply to the already-answered `Result` of a failed stream is assumed to return normally, so the late sink's end-of-stream follows it. If the embedding's `Result` throws on a second reply instead, that end-of-stream is skipped and the listen fails. Second, a repeated `onListen` is assumed to reach the plugin directly, so the new sink replaces the old one without closing it. The embedding's `EventChannel` in fact calls `onCancel` before a repeated `onListen`, which closes the earlier sink first.
- Events the runtime cannot produce are reported as `NotDeliverable`, and a run halts there. Examples: a stream event for a token with no event channel, a second completion of one call, a simple-call return for a call never launched.
- Bytes are unsigned: Kotlin's signed `Byte` value `217.toByte()` is the wire byte 217.

=== FILE: bridge.dfy ===
/** The streaming bridge: the process-wide `eventSinkMap` (token to sink)
    and, per token, the state captured by the streaming call's coroutine:
    the call's `Result`, `finished` and the recorded `apiException`. */
module Bridge {
  import opened Wrappers
  import opened Text
  import opened Protocol

  datatype Stream = Stream(
    call: CallId,                    // the `result` that received the acknowledgment
    finished: bool,                  // `finished`
    failure: Option<ApiException>)   // `apiException`

  datatype BridgeState = BridgeState(
    sinks: map<Token, SinkId>,       // `eventSinkMap`
    streams: map<Token, Stream>)     // the per-token closure state
  {
    /** A sink is registered only for a stream still running, and a failure
        is recorded only once the stream has finished. */
    predicate Valid() {
      && (forall t :: t in sinks ==> t in streams && !streams[t].finished)
      && (forall t :: t in streams && !streams[t].finished ==> streams[t].failure.None?)
    }
  }

  const Empty: BridgeState := BridgeState(map[], map[])

  /** The state after the acknowledgment of a streaming call: a running
      stream with no sink, no failure. */
  function Open(b: BridgeState, call: CallId, token: Token): (r: BridgeState)
    requires b.Valid() && token !in b.streams
    ensures r.Valid()
    ensures r.streams.Keys == b.streams.Keys + {token}
    ensures r.streams[token] == Stream(call, false, None) && token !in r.sinks
    ensures r.sinks == b.sinks
    ensures forall t :: t in b.streams ==> r.streams[t] == b.streams[t]
  {
    b.(streams := b.streams[token := Stream(call, false, None)])
  }

  /** `onListen`. A null sink changes nothing. On a finished stream the sink
      is closed at once and never registered; a recorded failure goes to the
      call's `Result` (already answered by the acknowledgment), not to the
      sink. On a running stream the sink is registered, replacing (without
      closing) any earlier one. */
  function Listen(b: BridgeState, token: Token, sink: Option<SinkId>): (r: Step<BridgeState>)
    requires b.Valid() && token in b.streams
    ensures r.next.Valid()
    ensures r.next.streams == b.streams
    ensures sink.None? ==> r == Step(b, [])
    ensures sink.Some? && b.streams[token].finished ==>
      && r.next == b && |r.out| >= 1
      && r.out[|r.out| - 1] == ToSink(token, sink.value, EndOfStream)
      && (forall i :: 0 <= i < |r.out| - 1 ==> r.out[i].ToCaller?)
      && (match b.streams[token].failure
          case Some(ex) => r.out[..|r.out| - 1] == [ToCaller(b.streams[token].call, ErrorReply(ex))]
          case None => |r.out| == 1)
    ensures sink.Some? && !b.streams[token].finished ==>
      r.out == [] && r.next.sinks == b.sinks[token := sink.value]
  {
    match sink
    case None => Step(b, [])
    case Some(k) =>
      var s := b.streams[token];
      if s.finished then
        var report := match s.failure
          case Some(ex) => [ToCaller(s.call, ErrorReply(ex))]
          case None => [];
        Step(b, report + [ToSink(token, k, EndOfStream)])
      else
        Step(b.(sinks := b.sinks[token := k]), [])
  }

  /** `onCancel`: remove the token's sink and close it, if there is one. */
  function Cancel(b: BridgeState, token: Token): (r: Step<BridgeState>)
    requires b.Valid()
    ensures r.next.Valid()
    ensures token !in r.next.sinks
    ensures r.next.sinks == b.sinks - {token} && r.next.streams == b.streams
    ensures token in b.sinks ==> r.out == [ToSink(token, b.sinks[token], EndOfStream)]
    ensures token !in b.sinks ==> r.out == []
  {
    RemoveAndClose(b, token)
  }

  /** `eventSinkMap.remove(id)?.endOfStream()`, shared by cancel and completion. */
  function RemoveAndClose(b: BridgeState, token: Token): Step<BridgeState> {
    var out := if token in b.sinks then [ToSink(token, b.sinks[token], EndOfStream)] else [];
    Step(b.(sinks := b.sinks - {token}), out)
  }

  /** What relaying one update does: deliver, or throw on the UI thread. */
  datatype Relay = Relayed(step: Step<BridgeState>) | RangeFault

  /** `onApiMethodUpdate`, run on the UI thread: the registered sink (if
      any) receives the update without its two framing bytes. With no sink
      the update is dropped. `copyOfRange(2, size)` throws when fewer than
      two bytes arrived, but only when a sink is there to evaluate it. */
  function Update(b: BridgeState, token: Token, data: seq<byte>): (r: Relay)
    ensures r.RangeFault? <==> token in b.sinks && |data| < 2
    ensures r.Relayed? ==> r.step.next == b
    ensures r.Relayed? && token in b.sinks ==>
      r.step.out == [ToSink(token, b.sinks[token], Data(data[2..]))]
    ensures token !in b.sinks ==> r == Relayed(Step(b, []))
  {
    if token !in b.sinks then Relayed(Step(b, []))
    else if |data| < 2 then RangeFault
    else Relayed(Step(b, [ToSink(token, b.sinks[token], Data(data[2..]))]))
  }

  /** The end of the streaming coroutine: the `catch` for an `ApiException`,
      the `finally` that removes and closes the sink, then `finished = true`.
      A failure goes to the registered sink if there is one, and is recorded
      for a later listener otherwise. */
  function Complete(b: BridgeState, token: Token, outcome: Option<ApiException>): (r: Step<BridgeState>)
    requires b.Valid() && token in b.streams && !b.streams[token].finished
    ensures r.next.Valid()
    ensures token !in r.next.sinks && r.next.sinks == b.sinks - {token}
    ensures r.next.streams.Keys == b.streams.Keys
    ensures r.next.streams[token].finished && r.next.streams[token].call == b.streams[token].call
    ensures forall t :: t in b.streams && t != token ==> r.next.streams[t] == b.streams[t]
    ensures token in b.sinks ==>
      r.next.streams[token].failure.None? &&
      r.out == (match outcome
                case Some(ex) => [ToSink(token, b.sinks[token], FailureEvent(ex))]
                case None => []) + [ToSink(token, b.sinks[token], EndOfStream)]
    ensures token !in b.sinks ==> r.out == [] && r.next.streams[token].failure == outcome
  {
    var s := b.streams[token];
    var caught :=
      match outcome
      case None => Step(b, [])
      case Some(ex) =>
        if token in b.sinks then Step(b, [ToSink(token, b.sinks[token], FailureEvent(ex))])
        else Step(b.(streams := b.streams[token := s.(failure := Some(ex))]), []);
    var closed := RemoveAndClose(caught.next, token);
    var done := closed.next.(streams := closed.next.streams[token := closed.next.streams[token].(finished := true)]);
    Step(done, caught.out + closed.out)
  }

  /** After a cancel, updates for that token are dropped. */
  lemma UpdateAfterCancelDropped(b: BridgeState, token: Token, data: seq<byte>)
    requires b.Valid()
    ensures var c := Cancel(b, token).next;
            Update(c, token, data) == Relayed(Step(c, []))
  {
  }

  /** Once a stream has finished, an update for it is dropped whatever its
      bytes, and a listener receives nothing but end-of-stream. */
  lemma FinishedStreamIsSilent(b: BridgeState, token: Token, data: seq<byte>, k: SinkId)
    requires b.Valid() && token in b.streams && b.streams[token].finished
    ensures Update(b, token, data) == Relayed(Step(b, []))
    ensures forall i :: 0 <= i < |Listen(b, token, Some(k)).out| ==>
              Listen(b, token, Some(k)).out[i].ToSink? ==>
              Listen(b, token, Some(k)).out[i] == ToSink(token, k, EndOfStream)
  {
  }
}

=== FILE: dispatcher.dfy ===
/** How `onMethodCall` sorts a method name: reserved control names are
    handled locally, every other name is a generic call, and a generic call
    whose name ends in "/cb" is a streaming call. */
module Dispatcher {

  /** The names `onMethodCall` matches before its `else` branch. */
  const ReservedNames: set<string> :=
    {"getLocalIpAddress", "databasePath", "initialized", "syncData", "rollbackData", "resetData", "log"}

  const StreamingMarker: string := "/cb"

  datatype Route =
    | Initialized     // the readiness query, answered by the gate
    | Local           // a leaf passthrough (address, path, sync, rollback, reset, log)
    | Streaming       // generic call answered by an acknowledgment and an event channel
    | Simple          // generic call answered once by the service's result

  /** `String.endsWith("/cb")`. */
  predicate EndsWithMarker(name: string) {
    |name| >= |StreamingMarker| && name[|name| - |StreamingMarker|..] == StreamingMarker
  }

  function RouteOf(name: string): (r: Route)
    ensures r.Initialized? <==> name == "initialized"
    ensures r.Local? <==> name in ReservedNames && name != "initialized"
    ensures (r.Streaming? || r.Simple?) <==> name !in ReservedNames
  {
    if name == "initialized" then Initialized
    else if name in ReservedNames then Local
    else if EndsWithMarker(name) then Streaming
    else Simple
  }

  /** Every name built as some prefix followed by "/cb" is streaming (no
      reserved name has that shape). */
  lemma MarkedNamesStream(prefix: string)
    ensures RouteOf(prefix + StreamingMarker) == Streaming
  {
    var name := prefix + StreamingMarker;
    assert name[|name| - 3..] == StreamingMarker;
    assert name[|name| - 1] == 'b';
    assert name !in ReservedNames;
  }

  /** Conversely, a streaming name is some prefix followed by "/cb", and a
      simple name is not. */
  lemma StreamingNamesAreMarked(name: string)
    ensures RouteOf(name) == Streaming ==> name == name[..|name| - 3] + StreamingMarker
    ensures RouteOf(name) == Simple ==> forall p :: p + StreamingMarker != name
  {
    if RouteOf(name) == Streaming {
      assert name == name[..|name| - 3] + name[|name| - 3..];
    }
    if RouteOf(name) == Simple {
      forall p | p + StreamingMarker == name
        ensures false
      {
        MarkedNamesStream(p);
      }
    }
  }
}

=== FILE: gate.dfy ===
/** The readiness gate: the service handle, the `serviceConnected` flag and
    the one `Result` of an `initialized` query held until the service
    connects. */
module Gate {
  import opened Wrappers
  import opened Protocol

  /** The bound `ApiService`, reduced to what the gate reads from it. */
  datatype Service = Service(initializedPort: int)

  datatype GateState = GateState(
    service: Option<Service>,   // `apiService`
    connected: bool,            // `serviceConnected`
    held: Option<CallId>)       // `methodCallResult`
  {
    /** The flag and the handle change together, and a query is only held
        while the service is away. */
    predicate Valid() {
      && (connected <==> service.Some?)
      && (connected ==> held.None?)
    }
  }

  const Initial: GateState := GateState(None, false, None)

  /** `apiService?.apiInitializedPort()`. */
  function PortOf(service: Option<Service>): Value {
    match service
    case Some(s) => Port(s.initializedPort)
    case None => Null
  }

  /** The `initialized` query: answered at once when connected, otherwise
      held, replacing (and so never answering) any query held before. */
  function Initialized(g: GateState, call: CallId): (r: Step<GateState>)
    requires g.Valid()
    ensures r.next.Valid()
    ensures g.connected ==>
      r.next == g && r.out == [ToCaller(call, Success(Port(g.service.value.initializedPort)))]
    ensures !g.connected ==>
      r.out == [] && r.next == g.(held := Some(call))
  {
    if g.connected then Step(g, [ToCaller(call, Success(PortOf(g.service)))])
    else Step(g.(held := Some(call)), [])
  }

  /** `onServiceConnected`: store the handle, raise the flag, answer the
      held query (if any) with the new service's port, and clear it. */
  function Connect(g: GateState, s: Service): (r: Step<GateState>)
    ensures r.next.Valid()
    ensures r.next.service == Some(s) && r.next.connected && r.next.held.None?
    ensures |r.out| == (if g.held.Some? then 1 else 0)
    ensures g.held.Some? ==> r.out[0] == ToCaller(g.held.value, Success(Port(s.initializedPort)))
  {
    var g' := GateState(Some(s), true, g.held);
    var out := if g'.held.Some? then [ToCaller(g'.held.value, Success(PortOf(g'.service)))] else [];
    Step(g'.(held := None), out)
  }

  /** `onServiceDisconnected`: lower the flag and drop the handle. The held
      query, if any, stays held. */
  function Disconnect(g: GateState): (r: Step<GateState>)
    requires g.Valid()
    ensures r.next.Valid()
    ensures r.next.service.None? && !r.next.connected
    ensures r.next.held == g.held && r.out == []
  {
    Step(GateState(None, false, g.held), [])
  }

  /** A query made while the service is away is answered exactly once,
      by the next connection, and a second query replaces the first: only
      the later one is ever answered. */
  lemma HeldQueryReplaced(g: GateState, first: CallId, second: CallId, s: Service)
    requires g.Valid() && !g.connected
    ensures var a := Initialized(g, first);
            var b := Initialized(a.next, second);
            var c := Connect(b.next, s);
            a.out == [] && b.out == [] &&
            c.out == [ToCaller(second, Success(Port(s.initializedPort)))]
  {
  }

  /** Once connected, the gate never holds a query, so a later connection
      answers nobody a second time. */
  lemma ConnectAnswersOnce(g: GateState, s1: Service, s2: Service)
    ensures Connect(Connect(g, s1).next, s2).out == []
  {
  }
}

=== FILE: plugin.dfy ===
/** The whole plugin as one state machine over the events the Android main
    thread serialises: method calls, the return of a simple call, service
    connection and disconnection, and the four stream events of a token. */
module Plugin {
  import opened Wrappers
  import opened Text
  import opened Protocol
  import opened Dispatcher
  import Gate
  import Bridge

  /** What the service's `apiCall` did for a simple call: returned bytes,
      threw an `ApiException`, or threw anything else (a missing "data" or
      "params" argument fails its `!!` the same way). */
  datatype CallOutcome = Returned(data: seq<byte>) | Threw(ex: ApiException) | Escaped

  datatype PluginState = PluginState(
    gate: Gate.GateState,
    bridge: Bridge.BridgeState,
    inflight: set<CallId>)        // simple calls launched and not yet answered
  {
    predicate Valid() {
      gate.Valid() && bridge.Valid()
    }
  }

  const Initial: PluginState := PluginState(Gate.Initial, Bridge.Empty, {})

  datatype Event =
    /** `onMethodCall`; `token` is the UUID a streaming call mints. */
    | OnMethodCall(call: CallId, name: string, token: Token)
    /** The background `apiCall` of a simple call returns or throws. */
    | OnCallReturn(call: CallId, outcome: CallOutcome)
    | OnServiceConnected(service: Gate.Service)
    | OnServiceDisconnected
    | OnListen(token: Token, sink: Option<SinkId>)
    | OnCancel(token: Token)
    | OnUpdate(token: Token, data: seq<byte>)
    /** `apiCallWithCallback` returns (`None`) or throws an `ApiException`. */
    | OnComplete(token: Token, failure: Option<ApiException>)

  /** Generic calls are the ones that reach the service. */
  predicate IsGeneric(name: string) {
    RouteOf(name).Streaming? || RouteOf(name).Simple?
  }

  /** `onMethodCall`. */
  function MethodCall(s: PluginState, call: CallId, name: string, token: Token): (r: Step<PluginState>)
    requires s.Valid()
    requires RouteOf(name).Streaming? && s.gate.service.Some? ==>
               IsUuidText(token) && token !in s.bridge.streams
    ensures r.next.Valid()
    ensures forall i :: 0 <= i < |r.out| ==> !r.out[i].ToSink?
    ensures r.next.bridge.sinks == s.bridge.sinks
    ensures IsGeneric(name) && s.gate.service.None? ==>
      r.next == s && r.out == [ToCaller(call, Error(ServiceStartFailedCode, ServiceStartFailedMessage))]
    ensures RouteOf(name).Streaming? && s.gate.service.Some? ==>
      && |r.out| == 1 && r.out[0].ToCaller? && r.out[0].call == call
      && r.out[0].reply.Success? && r.out[0].reply.value.Bytes?
      && ParseAck(r.out[0].reply.value.data) == Some(token)
      && r.next.bridge.streams.Keys == s.bridge.streams.Keys + {token}
      && r.next.bridge.streams[token] == Bridge.Stream(call, false, None)
      && (forall t :: t in s.bridge.streams ==> r.next.bridge.streams[t] == s.bridge.streams[t])
      && token !in r.next.bridge.sinks
      && r.next.gate == s.gate && r.next.inflight == s.inflight
    ensures RouteOf(name).Simple? && s.gate.service.Some? ==>
      r.out == [] && r.next == s.(inflight := s.inflight + {call})
    ensures RouteOf(name).Local? ==> r.next == s && r.out == [ToLeaf(call, name)]
    ensures RouteOf(name).Initialized? ==>
      r.next.bridge == s.bridge && r.next.inflight == s.inflight &&
      r == (var g := Gate.Initialized(s.gate, call); Step(s.(gate := g.next), g.out))
  {
    var route := RouteOf(name);
    if route.Initialized? then
      var g := Gate.Initialized(s.gate, call);
      Step(s.(gate := g.next), g.out)
    else if route.Local? then
      Step(s, [ToLeaf(call, name)])
    else if s.gate.service.None? then
      Step(s, [ToCaller(call, Error(ServiceStartFailedCode, ServiceStartFailedMessage))])
    else if route.Streaming? then
      AckRoundTrip(token);
      Step(s.(bridge := Bridge.Open(s.bridge, call, token)), [ToCaller(call, Success(Bytes(Ack(token))))])
    else
      Step(s.(inflight := s.inflight + {call}), [])
  }

  /** What one event does to the plugin. */
  datatype Handled =
    | Next(step: Step<PluginState>)
    | Crashed          // an exception escapes on the main thread
    | NotDeliverable   // the runtime cannot produce this event in this state

  /** The simple call's coroutine resumes: the caller receives the service's
      bytes unchanged, or the exception as `error(code.toString(), message)`.
      Only `ApiException` is caught: anything else escapes the coroutine on
      the main dispatcher, and the call is never answered. */
  function CallReturn(s: PluginState, call: CallId, outcome: CallOutcome): (r: Handled)
    requires s.Valid() && call in s.inflight
    ensures r.Crashed? <==> outcome.Escaped?
    ensures !r.NotDeliverable?
    ensures r.Next? ==>
      && r.step.next.Valid()
      && r.step.next == s.(inflight := s.inflight - {call})
      && |r.step.out| == 1 && r.step.out[0].ToCaller? && r.step.out[0].call == call
    ensures outcome.Returned? ==> r.Next? && r.step.out[0].reply == Success(Bytes(outcome.data))
    ensures outcome.Threw? ==>
      && r.Next?
      && r.step.out[0].reply.Error?
      && IsCanonicalDecimal(r.step.out[0].reply.code)
      && ParseDecimal(r.step.out[0].reply.code) == Some(outcome.ex.code)
      && r.step.out[0].reply.message == outcome.ex.message
  {
    var answered := s.(inflight := s.inflight - {call});
    match outcome
    case Returned(data) => Next(Step(answered, [ToCaller(call, Success(Bytes(data)))]))
    case Threw(ex) => Next(Step(answered, [ToCaller(call, ErrorReply(ex))]))
    case Escaped => Crashed
  }

  /** The events the runtime can produce in a state: stream events only for
      tokens whose event channel exists, one completion per streaming call,
      a return only for a launched simple call, and a freshly minted UUID
      for each streaming call. */
  predicate Deliverable(s: PluginState, e: Event) {
    match e
    case OnMethodCall(_, name, token) =>
      RouteOf(name).Streaming? && s.gate.service.Some? ==>
        IsUuidText(token) && token !in s.bridge.streams
    case OnCallReturn(call, _) => call in s.inflight
    case OnServiceConnected(_) => true
    case OnServiceDisconnected => true
    case OnListen(token, _) => token in s.bridge.streams
    case OnCancel(token) => token in s.bridge.streams
    case OnUpdate(token, _) => token in s.bridge.streams
    case OnComplete(token, _) => token in s.bridge.streams && !s.bridge.streams[token].finished
  }

  function Handle(s: PluginState, e: Event): (r: Handled)
    requires s.Valid()
    ensures r.Next? ==> r.step.next.Valid()
    ensures r.NotDeliverable? <==> !Deliverable(s, e)
    ensures r.Crashed? <==>
      Deliverable(s, e) &&
      ((e.OnUpdate? && e.token in s.bridge.sinks && |e.data| < 2) ||
       (e.OnCallReturn? && e.outcome.Escaped?))
    ensures r.Next? && !e.OnServiceConnected? && !e.OnServiceDisconnected? ==>
      r.step.next.gate.service == s.gate.service
  {
    if !Deliverable(s, e) then NotDeliverable
    else match e
      case OnMethodCall(call, name, token) => Next(MethodCall(s, call, name, token))
      case OnCallReturn(call, outcome) => CallReturn(s, call, outcome)
      case OnServiceConnected(service) =>
        var g := Gate.Connect(s.gate, service);
        Next(Step(s.(gate := g.next), g.out))
      case OnServiceDisconnected =>
        var g := Gate.Disconnect(s.gate);
        Next(Step(s.(gate := g.next), g.out))
      case OnListen(token, sink) =>
        var b := Bridge.Listen(s.bridge, token, sink);
        Next(Step(s.(bridge := b.next), b.out))
      case OnCancel(token) =>
        var b := Bridge.Cancel(s.bridge, token);
        Next(Step(s.(bridge := b.next), b.out))
      case OnUpdate(token, data) =>
        (match Bridge.Update(s.bridge, token, data)
         case Relayed(b) => Next(Step(s.(bridge := b.next), b.out))
         case RangeFault => Crashed)
      case OnComplete(token, failure) =>
        var b := Bridge.Complete(s.bridge, token, failure);
        Next(Step(s.(bridge := b.next), b.out))
  }

  /** The state and emissions after a sequence of events; the run halts at
      the first event that crashes or cannot be delivered. */
  datatype Trace = Trace(state: PluginState, out: seq<Emit>, halted: bool)

  function Run(s: PluginState, evs: seq<Event>): (r: Trace)
    requires s.Valid()
    ensures r.state.Valid()
    decreases |evs|
  {
    if evs == [] then Trace(s, [], false)
    else
      var r := Run(s, evs[..|evs| - 1]);
      if r.halted then r
      else match Handle(r.state, evs[|evs| - 1])
        case Next(st) => Trace(st.next, r.out + st.out, false)
        case _ => r.(halted := true)
  }

  // ---------------------------------------------------------------------
  // The readiness gate seen through the dispatcher

  /** Only a connection brings the service back: along any run without one,
      the handle stays absent. */
  lemma {:induction false} StaysDisconnected(s: PluginState, evs: seq<Event>)
    requires s.Valid() && s.gate.service.None?
    requires forall i :: 0 <= i < |evs| ==> !evs[i].OnServiceConnected?
    ensures Run(s, evs).state.gate.service.None?
    decreases |evs|
  {
    if evs != [] {
      StaysDisconnected(s, evs[..|evs| - 1]);
    }
  }

  /** After `onServiceDisconnected`, and whatever other events follow until
      the next connection, every generic call is refused with the fixed
      "50000" error and changes nothing. */
  lemma DisconnectedGenericCallFails(s: PluginState, evs: seq<Event>, call: CallId, name: string, token: Token)
    requires s.Valid() && IsGeneric(name)
    requires forall i :: 0 <= i < |evs| ==> !evs[i].OnServiceConnected?
    ensures var d := Handle(s, OnServiceDisconnected);
            d.Next? &&
            var later := Run(d.step.next, evs).state;
            Handle(later, OnMethodCall(call, name, token)) ==
              Next(Step(later, [ToCaller(call, Error(ServiceStartFailedCode, ServiceStartFailedMessage))]))
  {
    var d := Handle(s, OnServiceDisconnected);
    StaysDisconnected(d.step.next, evs);
  }

  // ---------------------------------------------------------------------
  // Sinks: nothing reaches a sink after its end-of-stream

  /** Which sink an event can push to: the listener it brings, or the sink
      registered for its token. */
  function Target(s: PluginState, e: Event): Option<SinkId> {
    match e
    case OnListen(_, sink) => sink
    case OnCancel(t) => if t in s.bridge.sinks then Some(s.bridge.sinks[t]) else None
    case OnUpdate(t, _) => if t in s.bridge.sinks then Some(s.bridge.sinks[t]) else None
    case OnComplete(t, _) => if t in s.bridge.sinks then Some(s.bridge.sinks[t]) else None
    case _ => None
  }

  predicate Injective(m: map<Token, SinkId>) {
    forall t1, t2 :: t1 in m && t2 in m && t1 != t2 ==> m[t1] != m[t2]
  }

  ghost predicate Closed(out: seq<Emit>, k: SinkId) {
    exists i :: 0 <= i < |out| && out[i].ToSink? && out[i].sink == k && out[i].event.EndOfStream?
  }

  /** Once a sink has received end-of-stream, nothing more reaches it; in
      particular no sink is closed twice. */
  predicate ClosedAtMostOnce(out: seq<Emit>) {
    forall i, j :: 0 <= i < j < |out| && out[i].ToSink? && out[i].event.EndOfStream? && out[j].ToSink? ==>
      out[j].sink != out[i].sink
  }

  /** Every pushed event is for the event's own token and sink, and an
      end-of-stream is the last thing a step emits. */
  lemma StepShape(s: PluginState, e: Event)
    requires s.Valid() && Handle(s, e).Next?
    requires Injective(s.bridge.sinks)
    requires e.OnListen? && e.sink.Some? ==> e.sink.value !in s.bridge.sinks.Values
    ensures var st := Handle(s, e).step;
      && (forall j :: 0 <= j < |st.out| && st.out[j].ToSink? ==>
            Target(s, e).Some? && st.out[j].sink == Target(s, e).value && st.out[j].token == e.token)
      && (forall j :: 0 <= j < |st.out| && st.out[j].ToSink? && st.out[j].event.EndOfStream? ==>
            j == |st.out| - 1 && Target(s, e).value !in st.next.bridge.sinks.Values)
      && (forall t :: t in st.next.bridge.sinks ==>
            (t in s.bridge.sinks && st.next.bridge.sinks[t] == s.bridge.sinks[t]) ||
            (e.OnListen? && e.sink == Some(st.next.bridge.sinks[t])))
      && Injective(st.next.bridge.sinks)
  {
    var st := Handle(s, e).step;
    match e
    case OnListen(t, sink) =>
      if sink.Some? && !s.bridge.streams[t].finished {
        assert st.next.bridge.sinks == s.bridge.sinks[t := sink.value];
      }
    case OnCancel(t) =>
      if t in s.bridge.sinks {
        assert s.bridge.sinks[t] !in st.next.bridge.sinks.Values;
      }
    case OnComplete(t, _) =>
      if t in s.bridge.sinks {
        assert s.bridge.sinks[t] !in st.next.bridge.sinks.Values;
      }
    case _ =>
  }

  ghost predicate Listened(evs: seq<Event>, k: SinkId) {
    exists i :: 0 <= i < |evs| && evs[i].OnListen? && evs[i].sink == Some(k)
  }

  /** Flutter hands every `onListen` a new sink object. */
  predicate FreshSinks(evs: seq<Event>) {
    forall i, j :: 0 <= i < j < |evs| && evs[i].OnListen? && evs[j].OnListen? && evs[j].sink.Some? ==>
      evs[i].sink != evs[j].sink
  }

  /** What holds after every prefix of a run from the initial state. */
  ghost predicate TraceInv(evs: seq<Event>, r: Trace) {
    && ClosedAtMostOnce(r.out)
    && (forall i :: 0 <= i < |r.out| && r.out[i].ToSink? ==> Listened(evs, r.out[i].sink))
    && (forall t :: t in r.state.bridge.sinks ==>
          Listened(evs, r.state.bridge.sinks[t]) && !Closed(r.out, r.state.bridge.sinks[t]))
    && Injective(r.state.bridge.sinks)
  }

  lemma ListenedGrows(evs: seq<Event>, e: Event, k: SinkId)
    requires Listened(evs, k)
    ensures Listened(evs + [e], k)
  {
    var i :| 0 <= i < |evs| && evs[i].OnListen? && evs[i].sink == Some(k);
    assert (evs + [e])[i] == evs[i];
  }

  lemma AppendOne(out: seq<Emit>, more: seq<Emit>, k: SinkId)
    requires ClosedAtMostOnce(out)
    requires !Closed(out, k)
    requires forall j :: 0 <= j < |more| && more[j].ToSink? ==> more[j].sink == k
    requires forall j :: 0 <= j < |more| && more[j].ToSink? && more[j].event.EndOfStream? ==> j == |more| - 1
    ensures ClosedAtMostOnce(out + more)
  {
    var all := out + more;
    forall i, j | 0 <= i < j < |all| && all[i].ToSink? && all[i].event.EndOfStream? && all[j].ToSink?
      ensures all[j].sink != all[i].sink
    {
      if i < |out| {
        assert all[i] == out[i];
        if j >= |out| {
          assert all[j] == more[j - |out|];
        }
      }
    }
  }

  lemma AppendSilent(out: seq<Emit>, more: seq<Emit>)
    requires ClosedAtMostOnce(out)
    requires forall j :: 0 <= j < |more| ==> !more[j].ToSink?
    ensures ClosedAtMostOnce(out + more)
  {
    var all := out + more;
    forall i, j | 0 <= i < j < |all| && all[i].ToSink? && all[i].event.EndOfStream? && all[j].ToSink?
      ensures all[j].sink != all[i].sink
    {
      assert all[i] == out[i];
      assert all[j] == out[j];
    }
  }

  lemma ClosedAppend(out: seq<Emit>, more: seq<Emit>, k: SinkId)
    requires !Closed(out, k) && !Closed(more, k)
    ensures !Closed(out + more, k)
  {
    forall i | 0 <= i < |out + more|
      ensures !((out + more)[i].ToSink? && (out + more)[i].sink == k && (out + more)[i].event.EndOfStream?)
    {
      if i < |out| {
        assert (out + more)[i] == out[i];
      } else {
        assert (out + more)[i] == more[i - |out|];
      }
    }
  }

  /** A trace invariant survives an event that the run ignores or halts on. */
  lemma TraceInvMoreEvents(evs: seq<Event>, e: Event, r: Trace)
    requires TraceInv(evs, r)
    ensures TraceInv(evs + [e], r)
  {
    forall k | Listened(evs, k)
      ensures Listened(evs + [e], k)
    {
      ListenedGrows(evs, e, k);
    }
  }

  /** The emissions of one delivered event keep the trace invariant. */
  lemma TraceInvStep(evs: seq<Event>, e: Event, r: Trace, st: Step<PluginState>)
    requires r.state.Valid() && TraceInv(evs, r)
    requires Handle(r.state, e) == Next(st)
    requires e.OnListen? && e.sink.Some? ==> !Listened(evs, e.sink.value)
    ensures TraceInv(evs + [e], Trace(st.next, r.out + st.out, false))
  {
    var s := r.state;
    var evs' := evs + [e];
    var out' := r.out + st.out;
    TraceInvMoreEvents(evs, e, r);
    if e.OnListen? && e.sink.Some? {
      var k := e.sink.value;
      assert k !in s.bridge.sinks.Values;
      assert !Closed(r.out, k);
      assert Listened(evs', k) by {
        assert evs'[|evs|] == e;
      }
    }
    StepShape(s, e);
    var tgt := Target(s, e);
    if tgt.Some? {
      assert !Closed(r.out, tgt.value);
      AppendOne(r.out, st.out, tgt.value);
      assert Listened(evs', tgt.value);
    } else {
      AppendSilent(r.out, st.out);
    }
    forall i | 0 <= i < |out'| && out'[i].ToSink?
      ensures Listened(evs', out'[i].sink)
    {
      if i < |r.out| {
        assert out'[i] == r.out[i];
      } else {
        assert out'[i] == st.out[i - |r.out|];
      }
    }
    forall t | t in st.next.bridge.sinks
      ensures Listened(evs', st.next.bridge.sinks[t]) && !Closed(out', st.next.bridge.sinks[t])
    {
      var k := st.next.bridge.sinks[t];
      if e.OnListen? && e.sink == Some(k) {
        assert !Closed(r.out, k);
      }
      assert !Closed(st.out, k);
      ClosedAppend(r.out, st.out, k);
    }
  }

  lemma {:induction false} TraceInvHolds(evs: seq<Event>)
    requires FreshSinks(evs)
    ensures TraceInv(evs, Run(Initial, evs))
    decreases |evs|
  {
    if evs == [] {
      return;
    }
    var pre := evs[..|evs| - 1];
    var e := evs[|evs| - 1];
    assert evs == pre + [e];
    assert FreshSinks(pre) by {
      forall i, j | 0 <= i < j < |pre| && pre[i].OnListen? && pre[j].OnListen? && pre[j].sink.Some?
        ensures pre[i].sink != pre[j].sink
      {
        assert pre[i] == evs[i] && pre[j] == evs[j];
      }
    }
    TraceInvHolds(pre);
    var r := Run(Initial, pre);
    if r.halted || !Handle(r.state, e).Next? {
      TraceInvMoreEvents(pre, e, r);
      return;
    }
    // The listener an `onListen` brings is new: no earlier event mentions it.
    if e.OnListen? && e.sink.Some? {
      assert !Listened(pre, e.sink.value);
    }
    TraceInvStep(pre, e, r, Handle(r.state, e).step);
  }

  /** The headline guarantee for sinks: over any run from the initial state,
      no sink receives anything after its end-of-stream, so each sink is
      closed at most once and never written to once closed. */
  lemma SinkClosedAtMostOnce(evs: seq<Event>)
    requires FreshSinks(evs)
    ensures ClosedAtMostOnce(Run(Initial, evs).out)
  {
    TraceInvHolds(evs);
  }

  // ---------------------------------------------------------------------
  // Streams: nothing but end-of-stream after completion

  /** The token of a stream event. */
  predicate ConcernsToken(e: Event, t: Token) {
    (e.OnListen? || e.OnCancel? || e.OnUpdate? || e.OnComplete?) && e.token == t
  }

  /** A step pushes only to sinks of the token its event concerns, and a
      finished stream stays finished. */
  lemma StepPushesOwnToken(s: PluginState, e: Event)
    requires s.Valid() && Handle(s, e).Next?
    ensures var st := Handle(s, e).step;
      && (forall j :: 0 <= j < |st.out| && st.out[j].ToSink? ==> ConcernsToken(e, st.out[j].token))
      && (forall t :: t in s.bridge.streams && s.bridge.streams[t].finished ==>
            t in st.next.bridge.streams && st.next.bridge.streams[t].finished)
  {
  }

  /** One step on a finished stream: it stays finished, and the step pushes
      nothing but end-of-stream to the token's sinks. */
  lemma FinishedStepSilent(s: PluginState, e: Event, t: Token)
    requires s.Valid() && t in s.bridge.streams && s.bridge.streams[t].finished
    requires Handle(s, e).Next?
    ensures var st := Handle(s, e).step;
      && t in st.next.bridge.streams && st.next.bridge.streams[t].finished
      && forall j :: 0 <= j < |st.out| && st.out[j].ToSink? && st.out[j].token == t ==>
           st.out[j].event == EndOfStream
  {
    StepPushesOwnToken(s, e);
    assert t !in s.bridge.sinks;
  }

  /** Once a token's stream has finished, no later event delivers data or an
      error to any sink of that token: a late listener gets end-of-stream
      and nothing else, and late updates are dropped. */
  lemma {:induction false} FinishedStreamStaysSilent(s: PluginState, evs: seq<Event>, t: Token)
    requires s.Valid() && t in s.bridge.streams && s.bridge.streams[t].finished
    ensures var r := Run(s, evs);
      && t in r.state.bridge.streams && r.state.bridge.streams[t].finished
      && forall i :: 0 <= i < |r.out| && r.out[i].ToSink? && r.out[i].token == t ==>
           r.out[i].event == EndOfStream
    decreases |evs|
  {
    if evs == [] {
      return;
    }
    var pre := evs[..|evs| - 1];
    var e := evs[|evs| - 1];
    FinishedStreamStaysSilent(s, pre, t);
    var r := Run(s, pre);
    if r.halted || !Handle(r.state, e).Next? {
      return;
    }
    var st := Handle(r.state, e).step;
    FinishedStepSilent(r.state, e, t);
    var out := Run(s, evs).out;
    assert out == r.out + st.out;
    forall i | 0 <= i < |out| && out[i].ToSink? && out[i].token == t
      ensures out[i].event == EndOfStream
    {
      if i < |r.out| {
        assert out[i] == r.out[i];
      } else {
        assert out[i] == st.out[i - |r.out|];
      }
    }
  }

  /** After the streaming call completes, whatever follows, the token's
      sinks receive nothing but end-of-stream. */
  lemma NothingDeliveredAfterCompletion(s: PluginState, t: Token, failure: Option<ApiException>, evs: seq<Event>)
    requires s.Valid() && Handle(s, OnComplete(t, failure)).Next?
    ensures var r := Run(Handle(s, OnComplete(t, failure)).step.next, evs);
      forall i :: 0 <= i < |r.out| && r.out[i].ToSink? && r.out[i].token == t ==>
        r.out[i].event == EndOfStream
  {
    FinishedStreamStaysSilent(Handle(s, OnComplete(t, failure)).step.next, evs, t);
  }

  // ---------------------------------------------------------------------
  // The acknowledgment comes first

  predicate IsAckOf(e: Emit, t: Token) {
    IsUuidText(t) && e.ToCaller? && e.reply == Success(Bytes(Ack(t)))
  }

  ghost predicate Acked(out: seq<Emit>, t: Token) {
    exists i :: 0 <= i < |out| && IsAckOf(out[i], t)
  }

  /** Every stream was opened by an acknowledgment already emitted, and
      every push to a sink comes after the acknowledgment of its token. */
  ghost predicate AckInv(r: Trace) {
    && (forall t :: t in r.state.bridge.streams ==> Acked(r.out, t))
    && (forall j :: 0 <= j < |r.out| && r.out[j].ToSink? ==> Acked(r.out[..j], r.out[j].token))
  }

  lemma AckedGrows(out: seq<Emit>, more: seq<Emit>, t: Token, j: int)
    requires Acked(out, t) && |out| <= j <= |out + more|
    ensures Acked((out + more)[..j], t)
  {
    var i :| 0 <= i < |out| && IsAckOf(out[i], t);
    assert (out + more)[..j][i] == out[i];
  }

  /** A step opens a stream only by emitting its acknowledgment. */
  lemma StepOpensWithAck(s: PluginState, e: Event)
    requires s.Valid() && Handle(s, e).Next?
    ensures var st := Handle(s, e).step;
      forall t :: t in st.next.bridge.streams && t !in s.bridge.streams ==>
        |st.out| == 1 && IsAckOf(st.out[0], t)
  {
    var st := Handle(s, e).step;
    if e.OnMethodCall? && RouteOf(e.name).Streaming? && s.gate.service.Some? {
      AckRoundTrip(e.token);
      assert st.out == [ToCaller(e.call, Success(Bytes(Ack(e.token))))];
    }
  }

  lemma AckInvStepStreams(r: Trace, e: Event, st: Step<PluginState>)
    requires r.state.Valid() && AckInv(r) && Handle(r.state, e) == Next(st)
    ensures forall t :: t in st.next.bridge.streams ==> Acked(r.out + st.out, t)
  {
    var out' := r.out + st.out;
    StepOpensWithAck(r.state, e);
    forall t | t in st.next.bridge.streams
      ensures Acked(out', t)
    {
      if t in r.state.bridge.streams {
        AckedGrows(r.out, st.out, t, |out'|);
        assert out'[..|out'|] == out';
      } else {
        assert out'[|r.out|] == st.out[0];
      }
    }
  }

  lemma AckInvStepPushes(r: Trace, e: Event, st: Step<PluginState>)
    requires r.state.Valid() && AckInv(r) && Handle(r.state, e) == Next(st)
    ensures forall j :: 0 <= j < |r.out + st.out| && (r.out + st.out)[j].ToSink? ==>
              Acked((r.out + st.out)[..j], (r.out + st.out)[j].token)
  {
    var out' := r.out + st.out;
    StepPushesOwnToken(r.state, e);
    forall j | 0 <= j < |out'| && out'[j].ToSink?
      ensures Acked(out'[..j], out'[j].token)
    {
      if j < |r.out| {
        assert out'[j] == r.out[j];
        assert out'[..j] == r.out[..j];
      } else {
        assert out'[j] == st.out[j - |r.out|];
        assert e.token in r.state.bridge.streams;
        AckedGrows(r.out, st.out, e.token, j);
      }
    }
  }

  /** Over any run from the initial state, each push to a sink is preceded
      by the acknowledgment that advertised its token to the caller. */
  lemma {:induction false} AckPrecedesPushes(evs: seq<Event>)
    ensures AckInv(Run(Initial, evs))
    decreases |evs|
  {
    if evs == [] {
      return;
    }
    var pre := evs[..|evs| - 1];
    AckPrecedesPushes(pre);
    var r := Run(Initial, pre);
    var e := evs[|evs| - 1];
    if !r.halted && Handle(r.state, e).Next? {
      AckInvStepStreams(r, e, Handle(r.state, e).step);
      AckInvStepPushes(r, e, Handle(r.state, e).step);
    }
  }
}

=== FILE: protocol.dfy ===
/** What crosses the boundary between the Flutter caller and the plugin:
    replies to a method-channel `Result`, events pushed to an event-channel
    sink, the streaming acknowledgment and the error shape. */
module Protocol {
  import opened Wrappers
  import opened Text

  /** Identity of one `MethodChannel.Result` handed to `onMethodCall`. */
  type CallId = nat
  /** Identity of one `EventChannel.EventSink` handed to `onListen`. */
  type SinkId = nat
  /** The UUID text minted for a streaming call. */
  type Token = string

  /** The service's `ApiException`: a numeric code and a message. */
  datatype ApiException = ApiException(code: int, message: string)

  /** The values a caller can receive through `result.success`. */
  datatype Value =
    | Null                      // `null`, e.g. `apiService?.apiInitializedPort()` with no service
    | Bytes(data: seq<byte>)    // a `ByteArray`
    | Port(port: int)           // the service's initialized port

  /** One answer delivered to a method-channel `Result`. */
  datatype Reply = Success(value: Value) | Error(code: string, message: string)

  /** One push to an event-channel sink. */
  datatype SinkEvent = Data(data: seq<byte>) | Failure(code: string, message: string) | EndOfStream

  /** Everything the plugin emits, in emission order. */
  datatype Emit =
    | ToCaller(call: CallId, reply: Reply)
    | ToSink(token: Token, sink: SinkId, event: SinkEvent)
    | ToLeaf(call: CallId, name: string)   // handed to a local collaborator outside this model

  /** A state change together with what it emitted. */
  datatype Step<S> = Step(next: S, out: seq<Emit>)

  /** The two tag bytes that open a streaming acknowledgment. */
  const AckTag: seq<byte> := [217, 36]

  /** The code and message of the fixed error for a generic call with no service. */
  const ServiceStartFailedCode: string := "50000"
  const ServiceStartFailedMessage: string := "Service Start Failed"

  /** How an `ApiException` reaches a `Result`: `error(code.toString(), message, null)`. */
  function ErrorReply(ex: ApiException): (r: Reply)
    ensures r.Error? && IsCanonicalDecimal(r.code) && ParseDecimal(r.code) == Some(ex.code)
    ensures r.message == ex.message
  {
    IntDecimalRoundTrip(ex.code);
    Error(IntToDecimal(ex.code), ex.message)
  }

  /** How an `ApiException` reaches a sink: `eventSink.error(code.toString(), message, null)`. */
  function FailureEvent(ex: ApiException): (e: SinkEvent)
    ensures e.Failure? && IsCanonicalDecimal(e.code) && ParseDecimal(e.code) == Some(ex.code)
    ensures e.message == ex.message
  {
    IntDecimalRoundTrip(ex.code);
    Failure(IntToDecimal(ex.code), ex.message)
  }

  /** The acknowledgment of a streaming call: the tag bytes, then the token's UTF-8 bytes. */
  function Ack(token: Token): (r: seq<byte>)
    requires IsUuidText(token)
    ensures |r| == 38
    ensures r[..2] == AckTag
  {
    UuidIsAscii(token);
    AckTag + Utf8(token)
  }

  /** What the caller does with an acknowledgment: check the tag and read the
      token that names the event channel it must listen on. */
  function ParseAck(b: seq<byte>): Option<Token> {
    if |b| >= 2 && b[..2] == AckTag && IsAsciiBytes(b[2..]) then Some(AsciiText(b[2..])) else None
  }

  /** The acknowledgment carries the token losslessly. */
  lemma AckRoundTrip(token: Token)
    requires IsUuidText(token)
    ensures ParseAck(Ack(token)) == Some(token)
  {
    UuidIsAscii(token);
    var b := Ack(token);
    assert b[2..] == Utf8(token);
    AsciiRoundTrip(token);
  }

  /** Distinct tokens give distinct acknowledgments. */
  lemma AckInjective(t1: Token, t2: Token)
    requires IsUuidText(t1) && IsUuidText(t2)
    ensures Ack(t1) == Ack(t2) <==> t1 == t2
  {
    AckRoundTrip(t1);
    AckRoundTrip(t2);
  }
}

=== FILE: scenarios.dfy ===
/** Concrete runs of the plugin: the exchanges a caller sees for a simple
    call (answered, or lost to an escaping exception), a streaming call
    with an early and with a late listener, a streaming call that fails
    before anyone listens, and an `initialized` query made before the
    service connects. */
module Scenarios {
  import opened Wrappers
  import opened Text
  import opened Protocol
  import opened Plugin
  import Gate
  import Bridge
  import Dispatcher

  /** Runs one event after a prefix. */
  lemma RunSnoc(s: PluginState, pre: seq<Event>, e: Event)
    requires s.Valid()
    ensures Run(s, pre + [e]) ==
      (var r := Run(s, pre);
       if r.halted then r
       else match Handle(r.state, e)
         case Next(st) => Trace(st.next, r.out + st.out, false)
         case _ => r.(halted := true))
  {
    assert (pre + [e])[..|pre + [e]| - 1] == pre;
  }

  lemma RunOne(s: PluginState, e: Event, st: Step<PluginState>)
    requires s.Valid() && Handle(s, e) == Next(st)
    ensures Run(s, [e]) == Trace(st.next, st.out, false)
  {
    RunSnoc(s, [], e);
  }

  /** Extends a run that did not halt by one delivered event. */
  lemma RunMore(s: PluginState, pre: seq<Event>, e: Event, r: Trace, st: Step<PluginState>)
    requires s.Valid() && Run(s, pre) == r && !r.halted && Handle(r.state, e) == Next(st)
    ensures Run(s, pre + [e]) == Trace(st.next, r.out + st.out, false)
  {
    RunSnoc(s, pre, e);
  }

  /** Ends a run that did not halt with an event that crashes. */
  lemma RunCrash(s: PluginState, pre: seq<Event>, e: Event, r: Trace)
    requires s.Valid() && Run(s, pre) == r && !r.halted && Handle(r.state, e).Crashed?
    ensures Run(s, pre + [e]) == r.(halted := true)
  {
    RunSnoc(s, pre, e);
  }

  function ConnectedTo(svc: Gate.Service): PluginState {
    Initial.(gate := Gate.GateState(Some(svc), true, None))
  }

  /** The state after the acknowledgment of one streaming call. */
  function Opened(svc: Gate.Service, call: CallId, token: Token, sinks: map<Token, SinkId>,
                  finished: bool, failure: Option<ApiException>): PluginState
  {
    ConnectedTo(svc).(bridge := Bridge.BridgeState(sinks, map[token := Bridge.Stream(call, finished, failure)]))
  }

  // One lemma per step of a single stream, so that each run below only
  // has to chain them.

  lemma ListenRunning(svc: Gate.Service, call: CallId, token: Token, k: SinkId)
    ensures Handle(Opened(svc, call, token, map[], false, None), OnListen(token, Some(k)))
            == Next(Step(Opened(svc, call, token, map[token := k], false, None), []))
  {
    assert map[][token := k] == map[token := k];
  }

  lemma UpdateListening(svc: Gate.Service, call: CallId, token: Token, k: SinkId, d: seq<byte>)
    requires |d| >= 2
    ensures Handle(Opened(svc, call, token, map[token := k], false, None), OnUpdate(token, d))
            == Next(Step(Opened(svc, call, token, map[token := k], false, None), [ToSink(token, k, Data(d[2..]))]))
  {
  }

  lemma UpdateUnheard(svc: Gate.Service, call: CallId, token: Token, d: seq<byte>)
    ensures Handle(Opened(svc, call, token, map[], false, None), OnUpdate(token, d))
            == Next(Step(Opened(svc, call, token, map[], false, None), []))
  {
  }

  lemma ListenFinished(svc: Gate.Service, call: CallId, token: Token, k: SinkId, failure: Option<ApiException>)
    ensures Handle(Opened(svc, call, token, map[], true, failure), OnListen(token, Some(k)))
            == Next(Step(Opened(svc, call, token, map[], true, failure),
                         (match failure
                          case Some(ex) => [ToCaller(call, ErrorReply(ex))]
                          case None => []) + [ToSink(token, k, EndOfStream)]))
  {
  }

  lemma CompleteListening(svc: Gate.Service, call: CallId, token: Token, k: SinkId)
    ensures Handle(Opened(svc, call, token, map[token := k], false, None), OnComplete(token, None))
            == Next(Step(Opened(svc, call, token, map[], true, None), [ToSink(token, k, EndOfStream)]))
  {
    var before := Opened(svc, call, token, map[token := k], false, None);
    var after := Handle(before, OnComplete(token, None)).step.next;
    assert after.bridge.sinks == map[];
    assert after.bridge.streams == map[token := Bridge.Stream(call, true, None)];
  }

  lemma CompleteUnheard(svc: Gate.Service, call: CallId, token: Token, failure: Option<ApiException>)
    ensures Handle(Opened(svc, call, token, map[], false, None), OnComplete(token, failure))
            == Next(Step(Opened(svc, call, token, map[], true, failure), []))
  {
    var before := Opened(svc, call, token, map[], false, None);
    var after := Handle(before, OnComplete(token, failure)).step.next;
    assert after.bridge.sinks == map[];
    assert after.bridge.streams == map[token := Bridge.Stream(call, true, failure)];
  }

  /** A simple call with the service connected: the caller receives the
      bytes the service returned, unchanged, and nothing else. */
  lemma SimpleCallScenario(svc: Gate.Service, call: CallId, name: string, token: Token, data: seq<byte>)
    requires Dispatcher.RouteOf(name) == Dispatcher.Simple
    ensures Run(Initial, [OnServiceConnected(svc), OnMethodCall(call, name, token), OnCallReturn(call, Returned(data))]).out
            == [ToCaller(call, Success(Bytes(data)))]
  {
    var e0, e1, e2 := OnServiceConnected(svc), OnMethodCall(call, name, token), OnCallReturn(call, Returned(data));
    var s1 := ConnectedTo(svc);
    var s2 := s1.(inflight := s1.inflight + {call});
    RunOne(Initial, e0, Step(s1, []));
    RunMore(Initial, [e0], e1, Trace(s1, [], false), Step(s2, []));
    assert [e0] + [e1] == [e0, e1];
    RunMore(Initial, [e0, e1], e2, Trace(s2, [], false),
            Step(s2.(inflight := s2.inflight - {call}), [ToCaller(call, Success(Bytes(data)))]));
    assert [e0, e1] + [e2] == [e0, e1, e2];
  }

  /** A simple call whose service throws something other than an
      `ApiException`: the run halts and the caller is never answered. */
  lemma EscapedCallScenario(svc: Gate.Service, call: CallId, name: string, token: Token)
    requires Dispatcher.RouteOf(name) == Dispatcher.Simple
    ensures var r := Run(Initial, [OnServiceConnected(svc), OnMethodCall(call, name, token), OnCallReturn(call, Escaped)]);
            r.halted && r.out == [] && call in r.state.inflight
  {
    var e0, e1, e2 := OnServiceConnected(svc), OnMethodCall(call, name, token), OnCallReturn(call, Escaped);
    var s1 := ConnectedTo(svc);
    var s2 := s1.(inflight := s1.inflight + {call});
    RunOne(Initial, e0, Step(s1, []));
    RunMore(Initial, [e0], e1, Trace(s1, [], false), Step(s2, []));
    assert [e0] + [e1] == [e0, e1];
    RunCrash(Initial, [e0, e1], e2, Trace(s2, [], false));
    assert [e0, e1] + [e2] == [e0, e1, e2];
  }

  /** Connecting, then a streaming call: the caller's only answer is the
      acknowledgment, and a running stream with no sink exists. */
  lemma AckScenario(svc: Gate.Service, call: CallId, name: string, token: Token)
    requires Dispatcher.RouteOf(name) == Dispatcher.Streaming && IsUuidText(token)
    ensures Run(Initial, [OnServiceConnected(svc), OnMethodCall(call, name, token)])
            == Trace(Opened(svc, call, token, map[], false, None), [ToCaller(call, Success(Bytes(Ack(token))))], false)
  {
    var e0, e1 := OnServiceConnected(svc), OnMethodCall(call, name, token);
    RunOne(Initial, e0, Step(ConnectedTo(svc), []));
    RunMore(Initial, [e0], e1, Trace(ConnectedTo(svc), [], false),
            Step(Opened(svc, call, token, map[], false, None), [ToCaller(call, Success(Bytes(Ack(token))))]));
    assert [e0] + [e1] == [e0, e1];
  }

  /** Connect, streaming call, listen: the sink is registered. */
  lemma ListenerAttached(svc: Gate.Service, call: CallId, name: string, token: Token, k: SinkId)
    requires Dispatcher.RouteOf(name) == Dispatcher.Streaming && IsUuidText(token)
    ensures Run(Initial, [OnServiceConnected(svc), OnMethodCall(call, name, token), OnListen(token, Some(k))])
            == Trace(Opened(svc, call, token, map[token := k], false, None), [ToCaller(call, Success(Bytes(Ack(token))))], false)
  {
    var e0, e1, e2 := OnServiceConnected(svc), OnMethodCall(call, name, token), OnListen(token, Some(k));
    AckScenario(svc, call, name, token);
    ListenRunning(svc, call, token, k);
    RunMore(Initial, [e0, e1], e2, Trace(Opened(svc, call, token, map[], false, None), [ToCaller(call, Success(Bytes(Ack(token))))], false),
            Step(Opened(svc, call, token, map[token := k], false, None), []));
    assert [e0, e1] + [e2] == [e0, e1, e2];
  }

  /** ... then one update, relayed without its framing bytes. */
  lemma FirstUpdateRelayed(svc: Gate.Service, call: CallId, name: string, token: Token, k: SinkId, a: seq<byte>)
    requires Dispatcher.RouteOf(name) == Dispatcher.Streaming && IsUuidText(token) && |a| >= 2
    ensures Run(Initial, [OnServiceConnected(svc), OnMethodCall(call, name, token), OnListen(token, Some(k)), OnUpdate(token, a)])
            == Trace(Opened(svc, call, token, map[token := k], false, None),
                     [ToCaller(call, Success(Bytes(Ack(token)))), ToSink(token, k, Data(a[2..]))], false)
  {
    var e0, e1, e2, e3 := OnServiceConnected(svc), OnMethodCall(call, name, token), OnListen(token, Some(k)), OnUpdate(token, a);
    var listening := Opened(svc, call, token, map[token := k], false, None);
    ListenerAttached(svc, call, name, token, k);
    UpdateListening(svc, call, token, k, a);
    RunMore(Initial, [e0, e1, e2], e3, Trace(listening, [ToCaller(call, Success(Bytes(Ack(token))))], false),
            Step(listening, [ToSink(token, k, Data(a[2..]))]));
    assert [e0, e1, e2] + [e3] == [e0, e1, e2, e3];
  }

  /** A streaming call with a listener attached before the first update:
      the caller gets the acknowledgment, the sink gets both updates without
      their framing bytes, in order, then end-of-stream. */
  lemma EarlyListenerScenario(svc: Gate.Service, call: CallId, name: string, token: Token, k: SinkId,
                              a: seq<byte>, b: seq<byte>)
    requires Dispatcher.RouteOf(name) == Dispatcher.Streaming && IsUuidText(token)
    requires |a| >= 2 && |b| >= 2
    ensures Run(Initial, [OnServiceConnected(svc), OnMethodCall(call, name, token), OnListen(token, Some(k)),
                          OnUpdate(token, a), OnUpdate(token, b), OnComplete(token, None)]).out
            == [ToCaller(call, Success(Bytes(Ack(token)))),
                ToSink(token, k, Data(a[2..])), ToSink(token, k, Data(b[2..])), ToSink(token, k, EndOfStream)]
  {
    var e0, e1, e2 := OnServiceConnected(svc), OnMethodCall(call, name, token), OnListen(token, Some(k));
    var e3, e4, e5 := OnUpdate(token, a), OnUpdate(token, b), OnComplete(token, None);
    var ack := ToCaller(call, Success(Bytes(Ack(token))));
    var listening := Opened(svc, call, token, map[token := k], false, None);
    var da, db := ToSink(token, k, Data(a[2..])), ToSink(token, k, Data(b[2..]));
    FirstUpdateRelayed(svc, call, name, token, k, a);
    UpdateListening(svc, call, token, k, b);
    CompleteListening(svc, call, token, k);
    RunMore(Initial, [e0, e1, e2, e3], e4, Trace(listening, [ack, da], false), Step(listening, [db]));
    assert [e0, e1, e2, e3] + [e4] == [e0, e1, e2, e3, e4];
    RunMore(Initial, [e0, e1, e2, e3, e4], e5, Trace(listening, [ack, da, db], false),
            Step(Opened(svc, call, token, map[], true, None), [ToSink(token, k, EndOfStream)]));
    assert [e0, e1, e2, e3, e4] + [e5] == [e0, e1, e2, e3, e4, e5];
  }

  /** Connect, streaming call, two updates with nobody listening: both are
      dropped. */
  lemma UpdatesUnheard(svc: Gate.Service, call: CallId, name: string, token: Token, a: seq<byte>, b: seq<byte>)
    requires Dispatcher.RouteOf(name) == Dispatcher.Streaming && IsUuidText(token)
    ensures Run(Initial, [OnServiceConnected(svc), OnMethodCall(call, name, token), OnUpdate(token, a), OnUpdate(token, b)])
            == Trace(Opened(svc, call, token, map[], false, None), [ToCaller(call, Success(Bytes(Ack(token))))], false)
  {
    var e0, e1, e2, e3 := OnServiceConnected(svc), OnMethodCall(call, name, token), OnUpdate(token, a), OnUpdate(token, b);
    var running := Opened(svc, call, token, map[], false, None);
    var ack := ToCaller(call, Success(Bytes(Ack(token))));
    AckScenario(svc, call, name, token);
    UpdateUnheard(svc, call, token, a);
    UpdateUnheard(svc, call, token, b);
    RunMore(Initial, [e0, e1], e2, Trace(running, [ack], false), Step(running, []));
    assert [e0, e1] + [e2] == [e0, e1, e2];
    RunMore(Initial, [e0, e1, e2], e3, Trace(running, [ack], false), Step(running, []));
    assert [e0, e1, e2] + [e3] == [e0, e1, e2, e3];
  }

  /** A streaming call whose listener attaches only after success: both
      updates are dropped and the sink gets end-of-stream alone. */
  lemma LateListenerScenario(svc: Gate.Service, call: CallId, name: string, token: Token, k: SinkId,
                             a: seq<byte>, b: seq<byte>)
    requires Dispatcher.RouteOf(name) == Dispatcher.Streaming && IsUuidText(token)
    ensures Run(Initial, [OnServiceConnected(svc), OnMethodCall(call, name, token),
                          OnUpdate(token, a), OnUpdate(token, b), OnComplete(token, None),
                          OnListen(token, Some(k))]).out
            == [ToCaller(call, Success(Bytes(Ack(token)))), ToSink(token, k, EndOfStream)]
  {
    var e0, e1, e2 := OnServiceConnected(svc), OnMethodCall(call, name, token), OnUpdate(token, a);
    var e3, e4, e5 := OnUpdate(token, b), OnComplete(token, None), OnListen(token, Some(k));
    var ack := ToCaller(call, Success(Bytes(Ack(token))));
    var running := Opened(svc, call, token, map[], false, None);
    var done := Opened(svc, call, token, map[], true, None);
    UpdatesUnheard(svc, call, name, token, a, b);
    CompleteUnheard(svc, call, token, None);
    ListenFinished(svc, call, token, k, None);
    RunMore(Initial, [e0, e1, e2, e3], e4, Trace(running, [ack], false), Step(done, []));
    assert [e0, e1, e2, e3] + [e4] == [e0, e1, e2, e3, e4];
    RunMore(Initial, [e0, e1, e2, e3, e4], e5, Trace(done, [ack], false), Step(done, [ToSink(token, k, EndOfStream)]));
    assert [e0, e1, e2, e3, e4] + [e5] == [e0, e1, e2, e3, e4, e5];
  }

  /** A streaming call whose service throws before anyone listens: the
      failure is recorded and nothing is emitted. */
  lemma FailureRecorded(svc: Gate.Service, call: CallId, name: string, token: Token, ex: ApiException)
    requires Dispatcher.RouteOf(name) == Dispatcher.Streaming && IsUuidText(token)
    ensures Run(Initial, [OnServiceConnected(svc), OnMethodCall(call, name, token), OnComplete(token, Some(ex))])
            == Trace(Opened(svc, call, token, map[], true, Some(ex)), [ToCaller(call, Success(Bytes(Ack(token))))], false)
  {
    var e0, e1, e2 := OnServiceConnected(svc), OnMethodCall(call, name, token), OnComplete(token, Some(ex));
    AckScenario(svc, call, name, token);
    CompleteUnheard(svc, call, token, Some(ex));
    RunMore(Initial, [e0, e1], e2, Trace(Opened(svc, call, token, map[], false, None), [ToCaller(call, Success(Bytes(Ack(token))))], false),
            Step(Opened(svc, call, token, map[], true, Some(ex)), []));
    assert [e0, e1] + [e2] == [e0, e1, e2];
  }

  /** ... and a sink that attaches afterwards is only closed, while the
      error goes to the call's `Result`, which the acknowledgment already
      answered. */
  lemma LateListenerAfterErrorScenario(svc: Gate.Service, call: CallId, name: string, token: Token, k: SinkId,
                                       ex: ApiException)
    requires Dispatcher.RouteOf(name) == Dispatcher.Streaming && IsUuidText(token)
    ensures Run(Initial, [OnServiceConnected(svc), OnMethodCall(call, name, token),
                          OnComplete(token, Some(ex)), OnListen(token, Some(k))]).out
            == [ToCaller(call, Success(Bytes(Ack(token)))), ToCaller(call, ErrorReply(ex)), ToSink(token, k, EndOfStream)]
  {
    var e0, e1 := OnServiceConnected(svc), OnMethodCall(call, name, token);
    var e2, e3 := OnComplete(token, Some(ex)), OnListen(token, Some(k));
    var failed := Opened(svc, call, token, map[], true, Some(ex));
    FailureRecorded(svc, call, name, token, ex);
    ListenFinished(svc, call, token, k, Some(ex));
    RunMore(Initial, [e0, e1, e2], e3, Trace(failed, [ToCaller(call, Success(Bytes(Ack(token))))], false),
            Step(failed, [ToCaller(call, ErrorReply(ex)), ToSink(token, k, EndOfStream)]));
    assert [e0, e1, e2] + [e3] == [e0, e1, e2, e3];
  }

  /** `initialized` before the service connects stays pending, and the
      connection answers it once with the service's port. */
  lemma InitializedBeforeConnectScenario(svc: Gate.Service, call: CallId, token: Token)
    ensures Run(Initial, [OnMethodCall(call, "initialized", token), OnServiceConnected(svc)]).out
            == [ToCaller(call, Success(Port(svc.initializedPort)))]
  {
    var e0, e1 := OnMethodCall(call, "initialized", token), OnServiceConnected(svc);
    var waiting := Initial.(gate := Gate.GateState(None, false, Some(call)));
    RunOne(Initial, e0, Step(waiting, []));
    RunMore(Initial, [e0], e1, Trace(waiting, [], false),
            Step(ConnectedTo(svc), [ToCaller(call, Success(Port(svc.initializedPort)))]));
    assert [e0] + [e1] == [e0, e1];
  }
}

=== FILE: text.dfy ===
/** Optional values, shared by every module of the model. */
module Wrappers {

  /** Kotlin's nullable `T?`. */
  datatype Option<+T> = None | Some(value: T)
}

/** Small value types shared by the model: bytes, the textual form of a
    UUID, its UTF-8 bytes, and the decimal rendering of an integer error
    code (`Int.toString()`). */
module Text {
  import opened Wrappers

  /** An unsigned byte. Kotlin's `Byte` is signed; the model keeps the
      unsigned value that travels on the wire (`217.toByte()` is 0xD9). */
  newtype byte = x: int | 0 <= x < 256

  const HexDigits: string := "0123456789abcdef"
  const DecimalDigits: string := "0123456789"

  /** The shape of `UUID.randomUUID().toString()`: 36 characters, hyphens
      at offsets 8, 13, 18 and 23, lower-case hexadecimal digits elsewhere. */
  predicate IsUuidText(s: string) {
    && |s| == 36
    && forall i :: 0 <= i < |s| ==>
         if i == 8 || i == 13 || i == 18 || i == 23 then s[i] == '-' else s[i] in HexDigits
  }

  predicate IsAscii(s: string) {
    forall i :: 0 <= i < |s| ==> s[i] as int < 128
  }

  predicate IsAsciiBytes(b: seq<byte>) {
    forall i :: 0 <= i < |b| ==> b[i] < 128
  }

  lemma UuidIsAscii(s: string)
    requires IsUuidText(s)
    ensures IsAscii(s)
  {
    forall i | 0 <= i < |s|
      ensures s[i] as int < 128
    {
      if !(i == 8 || i == 13 || i == 18 || i == 23) {
        assert s[i] in HexDigits;
      }
    }
  }

  /** `String.toByteArray()` (UTF-8) restricted to ASCII text, where every
      character is one byte with the same code. */
  function Utf8(s: string): (r: seq<byte>)
    requires IsAscii(s)
    ensures |r| == |s|
    ensures IsAsciiBytes(r)
  {
    if s == [] then [] else [s[0] as int as byte] + Utf8(s[1..])
  }

  /** Reads ASCII bytes back as text: the inverse of `Utf8`. */
  function AsciiText(b: seq<byte>): (r: string)
    requires IsAsciiBytes(b)
    ensures |r| == |b|
    ensures IsAscii(r)
  {
    if b == [] then [] else [b[0] as int as char] + AsciiText(b[1..])
  }

  lemma {:induction false} AsciiRoundTrip(s: string)
    requires IsAscii(s)
    ensures AsciiText(Utf8(s)) == s
  {
    if s != [] {
      AsciiRoundTrip(s[1..]);
      assert Utf8(s)[1..] == Utf8(s[1..]);
    }
  }

  predicate IsDigits(s: string) {
    forall i :: 0 <= i < |s| ==> '0' <= s[i] <= '9'
  }

  function DigitChar(d: nat): (c: char)
    requires d < 10
    ensures '0' <= c <= '9'
    ensures c as int - '0' as int == d
  {
    DecimalDigits[d]
  }

  /** Decimal digits of a natural number, most significant first, no leading zero. */
  function NatToDecimal(n: nat): (r: string)
    ensures |r| >= 1
    ensures IsDigits(r)
    ensures |r| > 1 ==> r[0] != '0'
    ensures r[0] == '0' <==> n == 0
    decreases n
  {
    if n < 10 then [DigitChar(n)] else NatToDecimal(n / 10) + [DigitChar(n % 10)]
  }

  /** A string of digits as `toString()` writes a natural number: at least
      one digit and no leading zero. */
  predicate IsNaturalText(s: string) {
    |s| >= 1 && IsDigits(s) && (|s| > 1 ==> s[0] != '0')
  }

  /** A string as `Int.toString()` writes an integer: a natural number, or a
      minus sign followed by a nonzero one (so never "-0"). */
  predicate IsCanonicalDecimal(s: string) {
    IsNaturalText(s) || (|s| >= 2 && s[0] == '-' && IsNaturalText(s[1..]) && s[1] != '0')
  }

  /** `Int.toString()`: a minus sign for negative values, then the digits. */
  function IntToDecimal(n: int): (r: string)
    ensures IsCanonicalDecimal(r)
    ensures r[0] == '-' <==> n < 0
  {
    if n < 0 then "-" + NatToDecimal(-n) else NatToDecimal(n)
  }

  /** The value of a string of decimal digits (the empty string reads as 0). */
  function DigitsValue(s: string): nat
    requires IsDigits(s)
  {
    if s == [] then 0
    else DigitsValue(s[..|s| - 1]) * 10 + (s[|s| - 1] as int - '0' as int)
  }

  /** Reads a rendered integer back: an optional minus sign followed by at
      least one digit. Anything else is not a rendering of an integer. */
  function ParseDecimal(s: string): Option<int> {
    if |s| >= 2 && s[0] == '-' && IsDigits(s[1..]) then Some(0 - DigitsValue(s[1..]) as int)
    else if |s| >= 1 && IsDigits(s) then Some(DigitsValue(s) as int)
    else None
  }

  lemma {:induction false} NatDecimalRoundTrip(n: nat)
    ensures DigitsValue(NatToDecimal(n)) == n
    decreases n
  {
    var s := NatToDecimal(n);
    if n < 10 {
      assert s[..|s| - 1] == [];
    } else {
      NatDecimalRoundTrip(n / 10);
      assert s[..|s| - 1] == NatToDecimal(n / 10);
    }
  }

  /** The rendered code of an error reads back as the same integer, so the
      caller can recover the service's numeric code exactly. */
  lemma IntDecimalRoundTrip(n: int)
    ensures ParseDecimal(IntToDecimal(n)) == Some(n)
  {
    var m: nat := if n < 0 then -n else n;
    var digits := NatToDecimal(m);
    if n < 0 {
      assert IntToDecimal(n) == "-" + digits;
      NegativeRoundTrip(m);
    } else {
      assert IntToDecimal(n) == digits;
      NonNegativeRoundTrip(m);
    }
  }

  lemma NonNegativeRoundTrip(m: nat)
    ensures ParseDecimal(NatToDecimal(m)) == Some(m as int)
  {
    var digits := NatToDecimal(m);
    assert '0' <= digits[0] <= '9';
    NatDecimalRoundTrip(m);
  }

  lemma NegativeRoundTrip(m: nat)
    requires m > 0
    ensures ParseDecimal("-" + NatToDecimal(m)) == Some(0 - m as int)
  {
    var digits := NatToDecimal(m);
    var s := "-" + digits;
    assert s[1..] == digits;
    NatDecimalRoundTrip(m);
  }

  lemma {:induction false} DigitsValuePositive(s: string)
    requires IsDigits(s) && |s| >= 1 && s[0] != '0'
    ensures DigitsValue(s) > 0
  {
    if |s| > 1 {
      DigitsValuePositive(s[..|s| - 1]);
    }
  }

  /** Every natural-number text is the rendering of its own value. */
  lemma {:induction false} NaturalTextRendering(s: string)
    requires IsNaturalText(s)
    ensures NatToDecimal(DigitsValue(s)) == s
  {
    var p := s[..|s| - 1];
    if |s| == 1 {
      assert p == [];
    } else {
      NaturalTextRendering(p);
      DigitsValuePositive(p);
      var v := DigitsValue(s);
      assert v / 10 == DigitsValue(p) && v % 10 == s[|s| - 1] as int - '0' as int;
      assert s == p + [s[|s| - 1]];
    }
  }

  /** Every canonical text reads back as an integer whose rendering is that
      very text. */
  lemma CanonicalRendering(s: string)
    requires IsCanonicalDecimal(s)
    ensures ParseDecimal(s).Some? && IntToDecimal(ParseDecimal(s).value) == s
  {
    if IsNaturalText(s) {
      NaturalTextRendering(s);
    } else {
      var digits := s[1..];
      NaturalTextRendering(digits);
      DigitsValuePositive(digits);
      assert s == "-" + digits;
    }
  }

  /** Two canonical texts of the same integer are the same text: the
      rendering of a code is determined by its value alone. */
  lemma CanonicalDecimalUnique(s: string, t: string)
    requires IsCanonicalDecimal(s) && IsCanonicalDecimal(t)
    requires ParseDecimal(s) == ParseDecimal(t)
    ensures s == t
  {
    CanonicalRendering(s);
    CanonicalRendering(t);
  }
}
